=== FILE: README.md ===
# Georgia NAIP tiling and download: a Dafny model

This project models the sequential logic in two batch scripts. The scripts cut the state of Georgia into a 10 × 10 grid of tiles, measure how much NAIP 2017 imagery covers each tile, and download that imagery tile by tile. Libraries do the geometry, the catalogue search, the signing, the HTTP transfers and the process pool. Each of those becomes an abstract input, or an oracle that answers success or failure. What remains is modelled and proved:

- **Grid** (`grid.dfy`): the even `rows × cols` split of a bounding box into rectangles, produced in row-major order. Coordinates are exact `real`s.
- **Format** and **Labels** (`format.dfy`, `labels.dfy`): the positional `row`/`col` labels taken from truncated `np.repeat`/`np.tile` sequences, and the `tile_%02d_%02d` identifier. Python's `%02d` is modelled for every integer, negative ones included.
- **Coverage** (`coverage.dfy`): the record each tile gets in the coverage pass. The search result, the footprint presence, the image sizes and the two areas are inputs.
- **Download** (`download.dfy`): `download_tile` as a state machine over an abstract file system. The file system maps each directory to its files, and each file is complete or partial. A `World` value says what the tile-table read and the catalogue search answer. Each returned item carries its fate: signing fails, the request fails, `open` fails, the write breaks after `open`, or the transfer completes.
- **Dispatch** (`dispatch.dfy`): `main` as a sequential fold of `download_tile` over the tile ids in the table. For distinct ids the fold is proved independent of the order of the calls, and each call touches only its own tile directory and, when it is missing, the base directory `Georgia` (`Download.DownloadTileIsLocal`, `Download.DownloadTile`). The concurrent interleaving of the pool itself is not modelled.

`Options` and `Geometry` hold the shared `Option` type and the rectangle and bounding-box vocabulary.

## Model

| member | source | states |
|---|---|---|
| Grid.BuildGrid | Georgia_Tiling.py:28-36 | The nested loop yields exactly `rows*cols` rectangles in row-major order. Entry `k` is the cell of row `k / cols` and column `k % cols`, and the whole list equals the reference grid `Cells`. |
| Grid.AppendRow | Georgia_Tiling.py:30-36 | One pass of the inner loop extends a correct prefix of `i*cols` cells by row `i`, keeping every entry equal to its row-major cell. |
| Grid.CellsRowMajor | Georgia_Tiling.py:29-34 | The rectangle at index `i*cols + j` is the one with lower-left corner `(minx + j*width, miny + i*height)`. |
| Grid.CellsIndex | Georgia_Tiling.py:29-34 | Every index of the grid decomposes into a row below `rows` and a column below `cols`, and its rectangle is that cell. |
| Grid.CellEdges | Georgia_Tiling.py:25-34 | Every cell is `(maxx-minx)/cols` wide and `(maxy-miny)/rows` high. Horizontal and vertical neighbours share an edge. The first column and row start at `minx`/`miny`, and the last column and row end exactly at `maxx`/`maxy`. |
| Grid.CellsWithinBounds | Georgia_Tiling.py:23-35 | Every generated rectangle lies inside `[minx,maxx] × [miny,maxy]`. |
| Grid.GridCoversBounds | Georgia_Tiling.py:23-36 | Every point of a non-degenerate bounding box lies in some generated rectangle. |
| Grid.GridInteriorsDisjoint | Georgia_Tiling.py:29-36 | No point lies in the interiors of two different rectangles. |
| Grid.GridAreaSum | Georgia_Tiling.py:23-36 | The rectangle areas add up to the area of the bounding box. |
| Format.Format02 | Georgia_Tiling.py:45 | `%02d` gives at least two characters, never contains `_`, and gives exactly two digits iff the value is in 0..99. |
| Format.Format02RoundTrip | Georgia_Tiling.py:45 | Parsing the `%02d` text of any integer gives that integer back. |
| Format.Format02Injective | Georgia_Tiling.py:45 | Different integers never format to the same `%02d` text. |
| Labels.Take | Georgia_Tiling.py:43-44 | Python's `[:n]` slice keeps `min(n, len)` elements and is a prefix of its input. |
| Labels.RepeatIndex | Georgia_Tiling.py:43 | Element `k` of `np.repeat(xs, count)` is `xs[k / count]`. |
| Labels.TileSeqIndex | Georgia_Tiling.py:44 | Element `k` of `np.tile(xs, times)` is `xs[k % len(xs)]`. |
| Labels.RowColumn | Georgia_Tiling.py:43 | `np.repeat(np.arange(rows), cols)` has `rows*cols` entries, and entry `k` is `k / cols`. |
| Labels.ColColumn | Georgia_Tiling.py:44 | `np.tile(np.arange(cols), rows)` has `rows*cols` entries, and entry `k` is `k % cols`. |
| Labels.TileIdRoundTrip | Georgia_Tiling.py:45 | `tile_%02d_%02d` can be parsed back to the row and column it was built from. |
| Labels.TileIdInjective | Georgia_Tiling.py:45 | Two identifiers are equal iff their rows and columns are equal. |
| Labels.LabelTiles | Georgia_Tiling.py:43-45 | With `n ≤ rows*cols` clipped tiles, every tile gets a label. Tile `k` gets row `k / cols`, column `k % cols` and id `tile_%02d_%02d` of those, by position alone and whatever its geometry. With more tiles than cells, the column assignment fails on a length mismatch. |
| Labels.LabelledIdsDistinct | Georgia_Tiling.py:43-45 | The positional identifiers of a labelled table are pairwise distinct. |
| Labels.SourceTile | Georgia_Tiling.py:40-45 | Labelling a clipped piece by the cell it came from gives a row and column in range, whose row-major index is that cell. |
| Labels.LabelBySource | Georgia_Tiling.py:40-45 | The corrected labelling keeps every piece's geometry and names it after its source cell. |
| Labels.SourceLabelNamesCell | Georgia_Tiling.py:40-45 | Under the corrected labelling, the row and column of a piece select exactly the grid rectangle it was clipped from. |
| Labels.SourceLabelsDistinct | Georgia_Tiling.py:40-45 | Pieces from distinct cells get distinct identifiers under the corrected labelling. |
| Labels.PositionalLabelMisnamesCell | Georgia_Tiling.py:40-45 | Counterexample: in a 2 × 2 grid where the clip drops cell 0, the surviving piece of cell 1 is named `tile_00_00` as written, but `tile_00_01` by its source. The two cells are different rectangles. |
| Labels.TwoByTwoExample | Georgia_Tiling.py:23-45 | In a concrete 2 × 2 grid over a 10 × 10 box, the four cells are the expected 5 × 5 squares, their areas add up to 100, and the ids run from `tile_00_00` to `tile_01_01`. |
| Coverage.ScanItems | Georgia_Tiling.py:94-101 | The item loop fails exactly when some image has a non-numeric `file:size`. Otherwise its total is the reference sum, with a missing size counting 0. The number of footprints collected is the number of items with a geometry, at most the number of items. |
| Coverage.SizeTotalFails | Georgia_Tiling.py:97-99 | The size sum raises iff some item's image size is not a number. |
| Coverage.TileRecord | Georgia_Tiling.py:85-124 | The record keeps the tile id. It is the `(-1, -1)` sentinel iff the search, a size, the geometry operations or the division raises. Otherwise `num_images` counts every returned item, including those without geometry. Percent is exactly 0 with no footprints, and otherwise satisfies `percent × tileArea = 100 × coveredArea`. |
| Coverage.PercentInRange | Georgia_Tiling.py:104-110 | When the covered area lies between 0 and a positive tile area, the percentage lies in [0, 100]. |
| Coverage.FullCoverage | Georgia_Tiling.py:104-108 | A tile fully covered by footprints reports 100 percent and counts every item. |
| Coverage.CoveragePass | Georgia_Tiling.py:81-124 | The pass appends exactly one record per input tile, in tile order, and a tile that raises inside the `try` does not stop the loop. |
| Download.MakeDirs | Georgia_Downloading_Tiles.py:28-29 | `makedirs(exist_ok=True)` creates the tile directory and its missing parent `Georgia`, each empty. It leaves existing directories alone, and no other directory appears. |
| Download.FindGeometry | Georgia_Downloading_Tiles.py:34-38 | The lookup finds nothing iff no row has the id. Otherwise it returns the geometry of the first row with that id. |
| Download.FetchItem | Georgia_Downloading_Tiles.py:66-81 | Each item is signed once, first. It is requested at most once, with no retry, and iff signing succeeds and its file is absent, so an existing file is never requested or changed. A request failure or an open failure leaves no file. A write failure leaves a partial file, a completed transfer a complete one, and no other file changes. |
| Download.FetchAllFiles | Georgia_Downloading_Tiles.py:66-81 | After the item loop, the directory holds the old files unchanged plus one file per item whose transfer got as far as opening it. |
| Download.FetchAllAttemptsEveryItem | Georgia_Downloading_Tiles.py:66-81 | Every item is signed, in order, whatever happened to the items before it. |
| Download.FetchAllRequestsOnlyMissing | Georgia_Downloading_Tiles.py:70-73 | An item is requested only when its `<id>.tif` did not exist before the loop. |
| Download.FetchAllIsolatesItems | Georgia_Downloading_Tiles.py:66-81 | With distinct item ids, each item's file ends up exactly as if that item had been processed alone. Other items' failures do not affect it. |
| Download.DownloadTile | Georgia_Downloading_Tiles.py:27-83 | The tile directory and the base directory `Georgia` always exist afterwards. The base directory is created empty only when it is missing, and no other directory changes. Files already in the tile directory are never altered. An unreadable table, an unknown id or an already listed `.tif` returns with no call to the outside world at all. A failed search returns after that one search, with nothing signed or requested. A found tile is skipped iff its directory lists a `.tif`. Otherwise it is searched, and it ends with a search failure iff the catalogue fails. A successful search runs the item loop on the tile directory: the directory and the events after the search are exactly the loop's. Every return other than the finished one writes nothing beyond the directory. |
| Download.FinishedRunFiles | Georgia_Downloading_Tiles.py:48-81 | A run that reaches the item loop writes exactly the files of the items whose transfer got as far as opening the file. |
| Download.RunOnDownloadedTileIsNoOp | Georgia_Downloading_Tiles.py:42-46 | If the tile directory already lists a `.tif`, the run makes no search and signs nothing. It changes nothing beyond creating the base directory if it is missing. |
| Download.SecondRunIsNoOp | Georgia_Downloading_Tiles.py:42-46 | After a run that left a file with a visible name, running the same tile again is a no-op, whatever the world answers. |
| Download.AssetFileVisible | Georgia_Downloading_Tiles.py:43-44 | The `*.tif` glob lists an item's file unless the item id is empty or starts with a dot. |
| Download.AssetFileInjective | Georgia_Downloading_Tiles.py:69 | Distinct item ids get distinct file names. |
| Download.TileDirInjective | Georgia_Downloading_Tiles.py:28 | Distinct tile ids get distinct directories. |
| Download.DownloadTileIsLocal | Georgia_Downloading_Tiles.py:27-83 | A run reads only its own tile directory. File systems that agree there give the same directory, events and outcome. |
| Dispatch.RunAll | Georgia_Downloading_Tiles.py:86-93 | The fold calls `download_tile` exactly once per tile id, in list order. |
| Dispatch.TileIds | Georgia_Downloading_Tiles.py:88 | The id list has one entry per table row, in row order. |
| Dispatch.Main | Georgia_Downloading_Tiles.py:86-93 | An unreadable tile table aborts the driver. Otherwise there is one report per table row, naming that row's tile id. |
| Dispatch.RunAllFrame | Georgia_Downloading_Tiles.py:86-93 | After the driver, every listed tile has its image directory. The base directory `Georgia` exists iff it existed before or some tile was run, and it is created empty. Every other directory is as before. |
| Dispatch.RunAllMatchesSolo | Georgia_Downloading_Tiles.py:90-93 | With distinct ids, each tile's directory, status and events equal those of a run of that tile alone on the starting file system. |
| Dispatch.RunAllOrderIndependent | Georgia_Downloading_Tiles.py:90-93 | Two orders of the same distinct tile ids leave the same file system. |

## Left out

- Shapefile reading and writing, and CRS conversion: file I/O through libraries. The tile table is an input, and a failed read is `None`.
- `gpd.overlay` clipping, `unary_union`, `intersection`, `area` and `simplify`: foreign computational geometry. The clipped pieces, the footprint presence and the two areas are inputs. A geometry operation that raises is an input flag.
- The STAC search, `planetary_computer.sign` and `requests` streaming are network clients. They are oracles: a search result per geometry and a fate per item.
- `Pool.imap_unordered` and tqdm are concurrency and UI. Dispatch is a sequential fold, and order independence is proved for distinct tile ids.
- Duplicate tile ids in the table: two workers could then share one directory at the same time. Their interleaving is not modelled; the fold runs them one after the other.
- All `print` diagnostics and the CSV output are side effects with no bearing on the state modelled.
- Float rounding: the grid uses exact reals, not IEEE doubles. Over floats the last column may stop short of `maxx` or overshoot it.
- The search `limit=100`: the call passes it as the catalogue's page size, and `list(search.items())` reads every page. The model takes whatever list the catalogue returns and does not truncate it at 100.
- A failure of `os.makedirs` is not modelled. It sits outside any `try`, so it would propagate to the pool and abort `main`; the model assumes the directory can always be created.
- Tile or item ids that contain path separators: paths are plain strings, joined as written.
- Coverage.TileRecord: the areas are abstract numbers. A tile geometry that the search or the geometry operations reject appears only as one of the raising cases inside the `try`.
- Coverage.CoveragePass: `simplify` on the tile geometry and the `tile_id` lookup (lines 82-83) run before the `try`. A null geometry (AttributeError) or a missing `tile_id` column (KeyError) there aborts the whole pass, and no CSV is written. The model's "one record per tile" holds only for errors raised inside the `try`; it assumes every tile row has a geometry and an id.
- Download.FetchAllAttemptsEveryItem: every search, sign and request is assumed to return or raise. `requests.get` (line 75) and the catalogue searches pass no timeout, so a stalled server can block the item loop forever. The remaining items are then never signed, and the worker is blocked.
- Coverage.CoveragePass: the same assumption applies to the coverage searches (lines 86-93). A search that never returns stops the pass, and no later tile gets a record.
- Download.DownloadTile: a null geometry makes `geom.__geo_interface__` raise inside the search `try`. It is folded into the search-failure outcome.
- The coverage pass's `total_size` is summed but never stored in a record. The model computes it (`Coverage.ScanItems`) only because a non-numeric size makes the sum raise.
- Dispatch.Main: `world` is a function of the tile id, so two calls for the same id see the same table read and catalogue.

## Findings

| source | as written | input that shows it | evidently intended | confidence | as-written member | corrected member |
|---|---|---|---|---|---|---|
| Georgia_Tiling.py:40-45 | `row`/`col` come from the position of each clipped piece in the overlay output. Nothing links them to the grid cell the piece came from. | The clip drops a cell that lies outside the state, such as cell 0 of a 2 × 2 grid. The piece of cell 1 is then first and is labelled `tile_00_00`, the name of the dropped cell. | Each piece is named after the row and column of its own source rectangle. | not executed | Labels.PositionalLabelMisnamesCell | Labels.SourceLabelNamesCell |

`Labels.LabelTiles` keeps the labelling as written, since that is what the script stores. The corrected definition is `Labels.LabelBySource`. The downloader and the coverage pass take tile ids as given strings, so neither labelling feeds them.

=== FILE: coverage.dfy ===
/** The coverage pass (Georgia_Tiling.py, second script): one record per
    tile holding the number of catalog items found and the percentage of the
    tile covered by their footprints, or the sentinel pair (-1, -1) when
    anything in the tile's processing raises. Geometry is abstract: the
    catalog results, footprint presence and the two areas are inputs. */
module Coverage {
  import opened Options

  /** The `file:size` field of an item's image asset. */
  datatype FileSize =
    | Absent        // no `file:size` key: `.get(..., 0)` yields 0
    | Bytes(n: int)
    | Invalid       // a value `+=` rejects (a TypeError)

  datatype ImageAsset = NoImage | Image(size: FileSize)

  /** One catalog item: its `"image"` asset, if any, and whether it carries
      a footprint geometry. */
  datatype CatalogItem = CatalogItem(image: ImageAsset, hasFootprint: bool)

  /** The outcome of union, intersection and area on the tile: the area of
      the footprints' union inside the tile, and the tile's own area. */
  datatype Areas = GeometryError | Areas(covered: real, tile: real)

  /** Everything the outside world answers for one tile. */
  datatype TileQuery = SearchError | Results(items: seq<CatalogItem>, areas: Areas)

  datatype TileInput = TileInput(tileId: string, query: TileQuery)

  /** One row of the output table. */
  datatype Record = Record(tileId: string, numImages: int, percentCovered: real)

  /** What the item loop collects: the summed image size (computed and then
      unused by the source) and the number of footprints. */
  datatype Scan = Scan(totalSize: int, footprints: nat)

  /** The contribution of one item to `total_size`. */
  function ItemSize(item: CatalogItem): Option<int>
  {
    match item.image
    case NoImage => Some(0)
    case Image(Absent) => Some(0)
    case Image(Bytes(n)) => Some(n)
    case Image(Invalid) => None
  }

  /** Reference sum of the item sizes; `None` when one of them cannot be
      added. */
  function SizeTotal(items: seq<CatalogItem>): Option<int>
  {
    if items == [] then Some(0)
    else
      match (SizeTotal(items[..|items| - 1]), ItemSize(items[|items| - 1]))
      case (Some(a), Some(b)) => Some(a + b)
      case _ => None
  }

  function FootprintCount(items: seq<CatalogItem>): nat
  {
    if items == [] then 0
    else FootprintCount(items[..|items| - 1]) + (if items[|items| - 1].hasFootprint then 1 else 0)
  }

  /** Lines 94-101: the loop over the items, accumulating sizes and
      collecting footprints. */
  method ScanItems(items: seq<CatalogItem>) returns (r: Option<Scan>)
    ensures r.None? <==> exists k :: 0 <= k < |items| && items[k].image == Image(Invalid)
    ensures r.Some? ==> SizeTotal(items) == Some(r.value.totalSize)
    ensures r.Some? ==> r.value.footprints == FootprintCount(items)
    ensures r.Some? ==> r.value.footprints <= |items|
  {
    var total := 0;
    var footprints := 0;
    var i := 0;
    while i < |items|
      invariant 0 <= i <= |items|
      invariant SizeTotal(items[..i]) == Some(total)
      invariant footprints == FootprintCount(items[..i]) <= i
      invariant forall k :: 0 <= k < i ==> items[k].image != Image(Invalid)
    {
      assert items[..i + 1][..i] == items[..i];
      match ItemSize(items[i]) {
        case None =>
          return None;
        case Some(n) =>
          total := total + n;
      }
      if items[i].hasFootprint {
        footprints := footprints + 1;
      }
      i := i + 1;
    }
    assert items[..i] == items;
    return Some(Scan(total, footprints));
  }

  /** The sizes fail to add up exactly when some image asset carries a size
      that cannot be added. */
  lemma {:induction false} SizeTotalFails(items: seq<CatalogItem>)
    ensures SizeTotal(items).None? <==> exists k :: 0 <= k < |items| && items[k].image == Image(Invalid)
    decreases |items|
  {
    if items != [] {
      var init := items[..|items| - 1];
      SizeTotalFails(init);
      assert forall k :: 0 <= k < |init| ==> init[k] == items[k];
    }
  }

  /** Whether processing the tile raises: the search fails, a size cannot be
      added, or footprints exist and the geometry operations fail or the
      tile's area is zero (division by zero). */
  predicate Raises(q: TileQuery)
  {
    || q.SearchError?
    || SizeTotal(q.items).None?
    || (FootprintCount(q.items) > 0 && (q.areas.GeometryError? || q.areas.tile == 0.0))
  }

  predicate IsSentinel(r: Record)
  {
    r.numImages == -1 && r.percentCovered == -1.0
  }

  /** Lines 85-124 for one tile. */
  function TileRecord(t: TileInput): (r: Record)
    ensures r.tileId == t.tileId
    ensures IsSentinel(r) <==> Raises(t.query)
    ensures !Raises(t.query) ==> r.numImages == |t.query.items|
    ensures !Raises(t.query) && FootprintCount(t.query.items) == 0 ==> r.percentCovered == 0.0
    ensures !Raises(t.query) && FootprintCount(t.query.items) > 0 ==>
      r.percentCovered * t.query.areas.tile == 100.0 * t.query.areas.covered
  {
    match t.query
    case SearchError => Record(t.tileId, -1, -1.0)
    case Results(items, areas) =>
      if SizeTotal(items).None? then Record(t.tileId, -1, -1.0)
      else if FootprintCount(items) == 0 then Record(t.tileId, |items|, 0.0)
      else match areas
        case GeometryError => Record(t.tileId, -1, -1.0)
        case Areas(covered, tile) =>
          if tile == 0.0 then Record(t.tileId, -1, -1.0)
          else Record(t.tileId, |items|, (covered / tile) * 100.0)
  }

  /** Areas as geometry produces them: the covered part is a part of the
      tile. */
  predicate SaneAreas(q: TileQuery)
  {
    q.Results? && q.areas.Areas? ==> 0.0 <= q.areas.covered <= q.areas.tile
  }

  /** A successful record's percentage lies in [0, 100]. */
  lemma PercentInRange(t: TileInput)
    requires SaneAreas(t.query)
    requires !Raises(t.query)
    ensures 0.0 <= TileRecord(t).percentCovered <= 100.0
  {
    var r := TileRecord(t);
    if FootprintCount(t.query.items) > 0 {
      var a := t.query.areas;
      var p := r.percentCovered;
      assert p * a.tile == 100.0 * a.covered;
      assert a.tile > 0.0;
      PercentBound(p, a.covered, a.tile);
    }
  }

  lemma PercentBound(p: real, covered: real, tile: real)
    requires tile > 0.0 && 0.0 <= covered <= tile
    requires p * tile == 100.0 * covered
    ensures 0.0 <= p <= 100.0
  {
    assert (100.0 - p) * tile == 100.0 * (tile - covered);
  }

  /** A tile whose footprints' union covers it entirely is reported as 100%
      covered, whatever the number of footprints. */
  lemma FullCoverage(t: TileInput)
    requires t.query.Results? && t.query.areas.Areas?
    requires SizeTotal(t.query.items).Some? && FootprintCount(t.query.items) > 0
    requires t.query.areas.covered == t.query.areas.tile > 0.0
    ensures TileRecord(t).percentCovered == 100.0
    ensures TileRecord(t).numImages == |t.query.items|
  {
  }

  /** Lines 81-124: the loop over the tile table. A raising tile records the
      sentinel and the loop goes on with the next tile. */
  method CoveragePass(tiles: seq<TileInput>) returns (stats: seq<Record>)
    ensures |stats| == |tiles|
    ensures forall k :: 0 <= k < |tiles| ==> stats[k] == TileRecord(tiles[k])
  {
    stats := [];
    var i := 0;
    while i < |tiles|
      invariant 0 <= i <= |tiles|
      invariant |stats| == i
      invariant forall k :: 0 <= k < i ==> stats[k] == TileRecord(tiles[k])
    {
      stats := stats + [TileRecord(tiles[i])];
      i := i + 1;
    }
  }
}

=== FILE: dispatch.dfy ===
/** The driver: read the tile table once, then run the per-tile download for
    every tile id. The worker pool is modelled as a sequential fold; for
    distinct tile ids the fold's result does not depend on the order, which
    is what lets an unordered pool be read as any one of these folds. */
module Dispatch {
  import opened Options
  import opened Download

  /** What one call of the per-tile download reports. */
  datatype Report = Report(tileId: string, status: Status, events: seq<Event>)

  datatype Batch = Batch(fs: Fs, reports: seq<Report>)

  /** The driver either fails to read the tile table (an uncaught error) or
      dispatches every tile id it lists. */
  datatype Outcome = TableUnreadable | Dispatched(fs: Fs, reports: seq<Report>)

  /** A directory that is the image directory of one of `ids`. */
  predicate IsTileDirOf(d: string, ids: seq<string>)
  {
    exists k :: 0 <= k < |ids| && TileDir(ids[k]) == d
  }

  predicate Distinct(ids: seq<string>)
  {
    forall i, j :: 0 <= i < j < |ids| ==> ids[i] != ids[j]
  }

  /** Run the per-tile download for each id in turn; `world(id)` is what the
      shapefile read and the catalogue answer during that tile's call. */
  function RunAll(fs: Fs, ids: seq<string>, world: string -> World): (b: Batch)
    ensures |b.reports| == |ids|
    ensures forall k :: 0 <= k < |ids| ==> b.reports[k].tileId == ids[k]
    decreases |ids|
  {
    if ids == [] then Batch(fs, [])
    else
      var run := DownloadTile(fs, ids[0], world(ids[0]));
      var rest := RunAll(run.fs, ids[1..], world);
      Batch(rest.fs, [Report(ids[0], run.status, run.events)] + rest.reports)
  }

  function TileIds(rows: seq<TableRow>): (ids: seq<string>)
    ensures |ids| == |rows|
    ensures forall k :: 0 <= k < |rows| ==> ids[k] == rows[k].tileId
  {
    seq(|rows|, k requires 0 <= k < |rows| => rows[k].tileId)
  }

  /** The driver, run over the tile ids in table order. */
  function Main(fs: Fs, table: Option<seq<TableRow>>, world: string -> World): (o: Outcome)
    ensures o.TableUnreadable? <==> table.None?
    ensures o.Dispatched? ==> |o.reports| == |table.value|
    ensures o.Dispatched? ==> forall k :: 0 <= k < |o.reports| ==> o.reports[k].tileId == table.value[k].tileId
  {
    match table
    case None => TableUnreadable
    case Some(rows) =>
      var b := RunAll(fs, TileIds(rows), world);
      Dispatched(b.fs, b.reports)
  }

  /** Every tile gets its image directory, the base directory is created
      by the first call if it is missing, and no other directory changes. */
  lemma {:induction false} RunAllFrame(fs: Fs, ids: seq<string>, world: string -> World)
    ensures forall k :: 0 <= k < |ids| ==> TileDir(ids[k]) in RunAll(fs, ids, world).fs
    ensures BaseDir in RunAll(fs, ids, world).fs <==> BaseDir in fs || |ids| > 0
    ensures BaseDir in RunAll(fs, ids, world).fs ==>
      RunAll(fs, ids, world).fs[BaseDir] == if BaseDir in fs then fs[BaseDir] else map[]
    ensures forall d :: !IsTileDirOf(d, ids) && d != BaseDir ==>
      (d in RunAll(fs, ids, world).fs <==> d in fs) && (d in fs ==> RunAll(fs, ids, world).fs[d] == fs[d])
    decreases |ids|
  {
    if ids != [] {
      var run := DownloadTile(fs, ids[0], world(ids[0]));
      var out := RunAll(fs, ids, world).fs;
      RunAllFrame(run.fs, ids[1..], world);
      forall k | 0 <= k < |ids|
        ensures TileDir(ids[k]) in out
      {
        if k > 0 {
          assert ids[1..][k - 1] == ids[k];
        } else if IsTileDirOf(TileDir(ids[0]), ids[1..]) {
        } else {
          assert TileDir(ids[0]) in run.fs;
        }
      }
      forall d | !IsTileDirOf(d, ids) && d != BaseDir
        ensures (d in out <==> d in fs) && (d in fs ==> out[d] == fs[d])
      {
        assert d != TileDir(ids[0]);
      }
    }
  }

  lemma DistinctTail(ids: seq<string>)
    requires Distinct(ids) && ids != []
    ensures Distinct(ids[1..])
    ensures !(ids[0] in ids[1..])
  {
    var tail := ids[1..];
    forall i, j | 0 <= i < j < |tail|
      ensures tail[i] != tail[j]
    {
      assert tail[i] == ids[i + 1] && tail[j] == ids[j + 1];
    }
  }

  /** A tile directory no later id names is not touched by the later calls. */
  lemma NotTileDirOfOthers(ids: seq<string>)
    requires Distinct(ids) && ids != []
    ensures !IsTileDirOf(TileDir(ids[0]), ids[1..])
  {
    DistinctTail(ids);
    if IsTileDirOf(TileDir(ids[0]), ids[1..]) {
      var j :| 0 <= j < |ids[1..]| && TileDir(ids[1..][j]) == TileDir(ids[0]);
      TileDirInjective(ids[1..][j], ids[0]);
      assert false;
    }
  }

  /** With distinct ids every tile's directory, status and events are those
      of a run of that tile alone on the starting file system: the calls do
      not interfere. */
  lemma {:induction false} RunAllMatchesSolo(fs: Fs, ids: seq<string>, world: string -> World, k: nat)
    requires Distinct(ids)
    requires k < |ids|
    ensures TileDir(ids[k]) in RunAll(fs, ids, world).fs
    ensures RunAll(fs, ids, world).fs[TileDir(ids[k])] == DownloadTile(fs, ids[k], world(ids[k])).fs[TileDir(ids[k])]
    ensures RunAll(fs, ids, world).reports[k]
      == Report(ids[k], DownloadTile(fs, ids[k], world(ids[k])).status, DownloadTile(fs, ids[k], world(ids[k])).events)
    decreases |ids|
  {
    var run := DownloadTile(fs, ids[0], world(ids[0]));
    var tail := ids[1..];
    var rest := RunAll(run.fs, tail, world);
    assert RunAll(fs, ids, world) == Batch(rest.fs, [Report(ids[0], run.status, run.events)] + rest.reports);
    DistinctTail(ids);
    if k == 0 {
      NotTileDirOfOthers(ids);
      RunAllFrame(run.fs, tail, world);
    } else {
      assert tail[k - 1] == ids[k];
      RunAllMatchesSolo(run.fs, tail, world, k - 1);
      TileDirInjective(ids[0], ids[k]);
      DownloadTileIsLocal(run.fs, fs, ids[k], world(ids[k]));
    }
  }

  lemma SameTileDirs(ids1: seq<string>, ids2: seq<string>, d: string)
    requires multiset(ids1) == multiset(ids2)
    ensures IsTileDirOf(d, ids1) <==> IsTileDirOf(d, ids2)
  {
    if IsTileDirOf(d, ids1) {
      var i :| 0 <= i < |ids1| && TileDir(ids1[i]) == d;
      assert ids1[i] in multiset(ids2);
      var j :| 0 <= j < |ids2| && ids2[j] == ids1[i];
    }
    if IsTileDirOf(d, ids2) {
      var j :| 0 <= j < |ids2| && TileDir(ids2[j]) == d;
      assert ids2[j] in multiset(ids1);
      var i :| 0 <= i < |ids1| && ids1[i] == ids2[j];
    }
  }

  /** Order independence: two orders of the same distinct tile ids leave the
      same file system. */
  lemma RunAllOrderIndependent(fs: Fs, ids1: seq<string>, ids2: seq<string>, world: string -> World)
    requires Distinct(ids1) && Distinct(ids2)
    requires multiset(ids1) == multiset(ids2)
    ensures RunAll(fs, ids1, world).fs == RunAll(fs, ids2, world).fs
  {
    var a := RunAll(fs, ids1, world).fs;
    var b := RunAll(fs, ids2, world).fs;
    RunAllFrame(fs, ids1, world);
    RunAllFrame(fs, ids2, world);
    forall d
      ensures (d in a <==> d in b) && (d in a ==> a[d] == b[d])
    {
      SameTileDirs(ids1, ids2, d);
      if d == BaseDir {
        assert |ids1| == |multiset(ids1)| == |multiset(ids2)| == |ids2|;
      } else if IsTileDirOf(d, ids1) {
        var i :| 0 <= i < |ids1| && TileDir(ids1[i]) == d;
        assert ids1[i] in multiset(ids2);
        var j :| 0 <= j < |ids2| && ids2[j] == ids1[i];
        RunAllMatchesSolo(fs, ids1, world, i);
        RunAllMatchesSolo(fs, ids2, world, j);
      }
    }
    assert a == b;
  }
}

=== FILE: download.dfy ===
/** `download_tile` (Georgia_Downloading_Tiles.py) as a state machine over
    an abstract file system. The file system maps each directory path to its
    files; a file is either complete or the partial remains of a failed
    transfer. The table read, the catalog search, signing and the transfer
    are oracles: the world says what each of them answers. */
module Download {
  import opened Options
  import opened Geometry

  datatype FileState = Partial | Complete

  /** A directory: file name to contents. */
  type Dir = map<string, FileState>

  /** The file system: directory path to directory. */
  type Fs = map<string, Dir>

  const BaseDir: string := "Georgia"

  /** `os.path.join(base_dir, f"{tile_id}_Images")`. */
  function TileDir(tileId: string): string
  {
    BaseDir + "/" + tileId + "_Images"
  }

  /** The file name of an item inside its tile directory, `f"{item.id}.tif"`. */
  function AssetFile(itemId: string): string
  {
    itemId + ".tif"
  }

  /** Names the glob `*` does not match: those starting with a dot. */
  predicate Hidden(name: string)
  {
    |name| > 0 && name[0] == '.'
  }

  /** Whether the `*.tif` glob of line 44 lists a file of this name. */
  predicate MatchesTifGlob(name: string)
  {
    |name| >= 4 && name[|name| - 4..] == ".tif" && !Hidden(name)
  }

  /** The skip test of lines 44-45: at least one `.tif` listed. */
  predicate HasTif(d: Dir)
  {
    exists n :: n in d && MatchesTifGlob(n)
  }

  /** What happens to one item once the loop reaches it. */
  datatype Fetch =
    | SignFails      // `sign(item)` raises, or the signed item has no "image" asset
    | RequestFails   // the request fails or `raise_for_status` rejects it: before `open`
    | OpenFails      // `open(out_fp, "wb")` raises: no file
    | WriteFails     // the stream breaks after `open`: a partial file remains
    | Completes

  datatype Item = Item(id: string, fetch: Fetch)

  datatype SearchResult = SearchFails | Found(items: seq<Item>)

  /** One row of the tile table as the downloader reads it. */
  datatype TableRow = TableRow(tileId: string, geometry: Geometry)

  /** The answers of the outside world to one `download_tile` call: the tile
      table (`None` when reading it raises) and the catalog search. */
  datatype World = World(table: Option<seq<TableRow>>, search: Geometry -> SearchResult)

  /** Calls to the outside world, in order. */
  datatype Event = Search(area: Geometry) | Sign(itemId: string) | Request(itemId: string)

  /** Where `download_tile` returned. */
  datatype Status = GeometryUnreadable | TileNotFound | AlreadyDownloaded | SearchFailed | Finished

  datatype Step = Step(dir: Dir, events: seq<Event>)

  datatype Run = Run(fs: Fs, events: seq<Event>, status: Status)

  predicate Searched(events: seq<Event>)
  {
    exists e :: e in events && e.Search?
  }

  /** An item whose processing leaves a file behind. */
  predicate Produces(item: Item)
  {
    item.fetch == WriteFails || item.fetch == Completes
  }

  /** The names the items may leave behind. */
  function Produced(items: seq<Item>): set<string>
  {
    set k | 0 <= k < |items| && Produces(items[k]) :: AssetFile(items[k].id)
  }

  /** `os.makedirs(dir, exist_ok=True)` for a directory directly inside
      `parent`: both are created, empty, when missing; existing directories
      are left alone and nothing else appears. */
  function MakeDirs(fs: Fs, parent: string, dir: string): (r: Fs)
    ensures r.Keys == fs.Keys + {parent, dir}
    ensures forall d :: d in fs ==> r[d] == fs[d]
    ensures forall d :: d in r && d !in fs ==> r[d] == map[]
  {
    var withParent := if parent in fs then fs else fs[parent := map[]];
    if dir in withParent then withParent else withParent[dir := map[]]
  }

  /** Row `k` is the first with this identifier. */
  predicate FirstMatch(rows: seq<TableRow>, tileId: string, k: int)
  {
    0 <= k < |rows| && rows[k].tileId == tileId && forall j :: 0 <= j < k ==> rows[j].tileId != tileId
  }

  /** Lines 34-38: the geometry of the first row with this identifier. */
  function FindGeometry(rows: seq<TableRow>, tileId: string): (g: Option<Geometry>)
    ensures g.None? <==> forall k :: 0 <= k < |rows| ==> rows[k].tileId != tileId
    ensures g.Some? ==> exists k :: FirstMatch(rows, tileId, k) && rows[k].geometry == g.value
  {
    if rows == [] then None
    else if rows[0].tileId == tileId then Some(rows[0].geometry)
    else
      var g := FindGeometry(rows[1..], tileId);
      assert forall k :: 0 <= k < |rows| - 1 ==> rows[1..][k] == rows[k + 1];
      assert g.Some? ==> forall k :: FirstMatch(rows[1..], tileId, k) ==> FirstMatch(rows, tileId, k + 1);
      g
  }

  /** Lines 67-81 for one item: sign, skip an existing file, request, write.
      Any failure is caught and ends this item only. */
  function FetchItem(d: Dir, item: Item): (s: Step)
    ensures |s.events| >= 1 && s.events[0] == Sign(item.id)
    ensures forall e :: e in s.events[1..] ==> e == Request(item.id)
    ensures |s.events| == if Request(item.id) in s.events then 2 else 1
    ensures Request(item.id) in s.events <==> item.fetch != SignFails && AssetFile(item.id) !in d
    ensures AssetFile(item.id) in d ==> s.dir == d
    ensures !Produces(item) ==> s.dir == d
    ensures s.dir.Keys == d.Keys + (if Produces(item) then {AssetFile(item.id)} else {})
    ensures forall n :: n in d ==> s.dir[n] == d[n]
    ensures AssetFile(item.id) !in d && item.fetch == Completes ==> s.dir[AssetFile(item.id)] == Complete
    ensures AssetFile(item.id) !in d && item.fetch == WriteFails ==> s.dir[AssetFile(item.id)] == Partial
  {
    var file := AssetFile(item.id);
    if item.fetch == SignFails then Step(d, [Sign(item.id)])
    else if file in d then Step(d, [Sign(item.id)])
    else
      match item.fetch
      case RequestFails => Step(d, [Sign(item.id), Request(item.id)])
      case OpenFails => Step(d, [Sign(item.id), Request(item.id)])
      case WriteFails => Step(d[file := Partial], [Sign(item.id), Request(item.id)])
      case Completes => Step(d[file := Complete], [Sign(item.id), Request(item.id)])
  }

  /** Lines 66-81: the loop over all items. */
  function FetchAll(d: Dir, items: seq<Item>): Step
    decreases |items|
  {
    if items == [] then Step(d, [])
    else
      var first := FetchItem(d, items[0]);
      var rest := FetchAll(first.dir, items[1..]);
      Step(rest.dir, first.events + rest.events)
  }

  /** Lines 27-83. */
  function DownloadTile(fs: Fs, tileId: string, w: World): (r: Run)
    ensures TileDir(tileId) in r.fs
    ensures BaseDir in r.fs && r.fs[BaseDir] == (if BaseDir in fs then fs[BaseDir] else map[])
    ensures forall d :: d != TileDir(tileId) && d != BaseDir ==> (d in r.fs <==> d in fs) && (d in fs ==> r.fs[d] == fs[d])
    ensures TileDir(tileId) in fs ==> forall n :: n in fs[TileDir(tileId)] ==>
      n in r.fs[TileDir(tileId)] && r.fs[TileDir(tileId)][n] == fs[TileDir(tileId)][n]
    ensures r.status != Finished ==> r.fs == MakeDirs(fs, BaseDir, TileDir(tileId))
    ensures r.status == GeometryUnreadable <==> w.table.None?
    ensures r.status == TileNotFound <==> w.table.Some? && FindGeometry(w.table.value, tileId).None?
    ensures Searched(r.events) <==> r.status == SearchFailed || r.status == Finished
    ensures r.status == GeometryUnreadable || r.status == TileNotFound || r.status == AlreadyDownloaded ==>
      r.events == []
    ensures r.status == SearchFailed ==> r.events == [Search(FindGeometry(w.table.value, tileId).value)]
    ensures r.status == AlreadyDownloaded <==>
      && w.table.Some? && FindGeometry(w.table.value, tileId).Some?
      && HasTif(MakeDirs(fs, BaseDir, TileDir(tileId))[TileDir(tileId)])
    ensures r.status == SearchFailed <==>
      && w.table.Some? && FindGeometry(w.table.value, tileId).Some?
      && !HasTif(MakeDirs(fs, BaseDir, TileDir(tileId))[TileDir(tileId)])
      && w.search(FindGeometry(w.table.value, tileId).value).SearchFails?
    ensures r.status == Finished <==>
      && w.table.Some? && FindGeometry(w.table.value, tileId).Some?
      && !HasTif(MakeDirs(fs, BaseDir, TileDir(tileId))[TileDir(tileId)])
      && w.search(FindGeometry(w.table.value, tileId).value).Found?
    ensures r.status == Finished ==>
      var g := FindGeometry(w.table.value, tileId).value;
      var loop := FetchAll(MakeDirs(fs, BaseDir, TileDir(tileId))[TileDir(tileId)], w.search(g).items);
      r.fs[TileDir(tileId)] == loop.dir && r.events == [Search(g)] + loop.events
  {
    var dir := TileDir(tileId);
    var fs1 := MakeDirs(fs, BaseDir, dir);
    match w.table
    case None => Run(fs1, [], GeometryUnreadable)
    case Some(rows) =>
      match FindGeometry(rows, tileId)
      case None => Run(fs1, [], TileNotFound)
      case Some(geom) =>
        if HasTif(fs1[dir]) then Run(fs1, [], AlreadyDownloaded)
        else
          match w.search(geom)
          case SearchFails =>
            assert Search(geom) in [Search(geom)];
            Run(fs1, [Search(geom)], SearchFailed)
          case Found(items) =>
            var s := FetchAll(fs1[dir], items);
            FetchAllFiles(fs1[dir], items);
            assert ([Search(geom)] + s.events)[0] == Search(geom);
            Run(fs1[dir := s.dir], [Search(geom)] + s.events, Finished)
  }

  /** The item loop keeps every existing file as it was and adds exactly the
      files of the items that leave one behind. */
  lemma {:induction false} FetchAllFiles(d: Dir, items: seq<Item>)
    ensures FetchAll(d, items).dir.Keys == d.Keys + Produced(items)
    ensures forall n :: n in d ==> FetchAll(d, items).dir[n] == d[n]
    decreases |items|
  {
    if items != [] {
      var first := FetchItem(d, items[0]);
      FetchAllFiles(first.dir, items[1..]);
      assert Produced(items) == Produced(items[..1]) + Produced(items[1..]) by {
        ProducedSplit(items);
      }
    }
  }

  lemma ProducedSplit(items: seq<Item>)
    requires items != []
    ensures Produced(items) == Produced(items[..1]) + Produced(items[1..])
    ensures Produced(items[..1]) == if Produces(items[0]) then {AssetFile(items[0].id)} else {}
  {
    var tail := items[1..];
    forall n | n in Produced(items)
      ensures n in Produced(items[..1]) + Produced(tail)
    {
      var k :| 0 <= k < |items| && Produces(items[k]) && AssetFile(items[k].id) == n;
      if k > 0 {
        assert tail[k - 1] == items[k];
      } else {
        assert items[..1][0] == items[0];
      }
    }
    forall n | n in Produced(tail)
      ensures n in Produced(items)
    {
      var k :| 0 <= k < |tail| && Produces(tail[k]) && AssetFile(tail[k].id) == n;
      assert items[k + 1] == tail[k];
    }
  }

  /** The item ids named by the `Sign` events, in order. */
  function SignedIds(events: seq<Event>): seq<string>
  {
    if events == [] then []
    else (if events[0].Sign? then [events[0].itemId] else []) + SignedIds(events[1..])
  }

  function Ids(items: seq<Item>): seq<string>
  {
    seq(|items|, k requires 0 <= k < |items| => items[k].id)
  }

  lemma {:induction false} SignedIdsAppend(a: seq<Event>, b: seq<Event>)
    ensures SignedIds(a + b) == SignedIds(a) + SignedIds(b)
    decreases |a|
  {
    if a == [] {
      assert a + b == b;
    } else {
      assert (a + b)[0] == a[0];
      assert (a + b)[1..] == a[1..] + b;
      SignedIdsAppend(a[1..], b);
    }
  }

  lemma {:induction false} SignedIdsOfRequests(events: seq<Event>)
    requires forall e :: e in events ==> e.Request?
    ensures SignedIds(events) == []
    decreases |events|
  {
    if events != [] {
      assert events[0] in events;
      assert forall e :: e in events[1..] ==> e in events;
      SignedIdsOfRequests(events[1..]);
    }
  }

  /** Failure isolation, first half: every item is attempted (signed), in
      order, whatever happened to the items before it. */
  lemma {:induction false} FetchAllAttemptsEveryItem(d: Dir, items: seq<Item>)
    ensures SignedIds(FetchAll(d, items).events) == Ids(items)
    decreases |items|
  {
    if items != [] {
      var first := FetchItem(d, items[0]);
      var rest := FetchAll(first.dir, items[1..]);
      FetchAllAttemptsEveryItem(first.dir, items[1..]);
      SignedIdsAppend(first.events, rest.events);
      assert first.events == [first.events[0]] + first.events[1..];
      SignedIdsAppend([first.events[0]], first.events[1..]);
      SignedIdsOfRequests(first.events[1..]);
      assert SignedIds([first.events[0]]) == [items[0].id];
      assert Ids(items) == [items[0].id] + Ids(items[1..]);
    }
  }

  /** An item whose file already exists is never requested (and so never
      rewritten): requests go only to files missing when the loop began. */
  lemma {:induction false} FetchAllRequestsOnlyMissing(d: Dir, items: seq<Item>)
    ensures forall x :: Request(x) in FetchAll(d, items).events ==> AssetFile(x) !in d
    decreases |items|
  {
    if items != [] {
      var first := FetchItem(d, items[0]);
      FetchAllRequestsOnlyMissing(first.dir, items[1..]);
      forall x | Request(x) in FetchAll(d, items).events
        ensures AssetFile(x) !in d
      {
        if Request(x) in first.events {
          assert first.events[0] != Request(x);
          assert Request(x) in first.events[1..];
        }
      }
    }
  }

  lemma AssetFileInjective(a: string, b: string)
    ensures AssetFile(a) == AssetFile(b) <==> a == b
  {
    if AssetFile(a) == AssetFile(b) {
      assert |a| == |b|;
      assert a == AssetFile(a)[..|a|];
    }
  }

  /** Failure isolation, second half: when item ids are distinct, each
      item's file ends up exactly as if that item had been processed alone,
      whatever the fates of the others. */
  lemma {:induction false} FetchAllIsolatesItems(d: Dir, items: seq<Item>, k: nat)
    requires k < |items|
    requires forall i, j :: 0 <= i < j < |items| ==> items[i].id != items[j].id
    ensures var f := AssetFile(items[k].id);
      && (f in FetchAll(d, items).dir <==> f in FetchItem(d, items[k]).dir)
      && (f in FetchAll(d, items).dir ==> FetchAll(d, items).dir[f] == FetchItem(d, items[k]).dir[f])
    decreases |items|
  {
    var f := AssetFile(items[k].id);
    var first := FetchItem(d, items[0]);
    FetchAllFiles(first.dir, items[1..]);
    if k == 0 {
      if f !in first.dir {
        assert f !in Produced(items[1..]) by {
          forall j | 0 <= j < |items[1..]| && Produces(items[1..][j])
            ensures AssetFile(items[1..][j].id) != f
          {
            assert items[1..][j] == items[j + 1];
            AssetFileInjective(items[0].id, items[j + 1].id);
          }
        }
      }
    } else {
      var tail := items[1..];
      assert tail[k - 1] == items[k];
      FetchAllIsolatesItems(first.dir, tail, k - 1);
      AssetFileInjective(items[0].id, items[k].id);
      assert f in first.dir <==> f in d;
      assert f in d ==> first.dir[f] == d[f];
      FetchItemDependsOnOwnFile(d, first.dir, items[k]);
    }
  }

  /** One item's step only looks at its own file. */
  lemma FetchItemDependsOnOwnFile(d1: Dir, d2: Dir, item: Item)
    requires AssetFile(item.id) in d1 <==> AssetFile(item.id) in d2
    requires AssetFile(item.id) in d1 ==> d1[AssetFile(item.id)] == d2[AssetFile(item.id)]
    ensures var f := AssetFile(item.id);
      && (f in FetchItem(d1, item).dir <==> f in FetchItem(d2, item).dir)
      && (f in FetchItem(d1, item).dir ==> FetchItem(d1, item).dir[f] == FetchItem(d2, item).dir[f])
  {
  }

  /** Idempotence: once the tile directory lists a `.tif`, a run ends before
      any search, whatever the world answers, and changes nothing beyond
      creating the base directory if it is missing. */
  lemma RunOnDownloadedTileIsNoOp(fs: Fs, tileId: string, w: World)
    requires TileDir(tileId) in fs && HasTif(fs[TileDir(tileId)])
    ensures DownloadTile(fs, tileId, w).fs == MakeDirs(fs, BaseDir, TileDir(tileId))
    ensures BaseDir in fs ==> DownloadTile(fs, tileId, w).fs == fs
    ensures DownloadTile(fs, tileId, w).events == []
    ensures !Searched(DownloadTile(fs, tileId, w).events)
  {
  }

  /** A run that leaves a file of a visible name in the tile directory makes
      the next run of the same tile a no-op. */
  lemma SecondRunIsNoOp(fs: Fs, tileId: string, w1: World, w2: World, item: Item)
    requires var r := DownloadTile(fs, tileId, w1);
      r.status == Finished && MatchesTifGlob(AssetFile(item.id)) && AssetFile(item.id) in r.fs[TileDir(tileId)]
    ensures var r := DownloadTile(fs, tileId, w1);
      DownloadTile(r.fs, tileId, w2).fs == r.fs && DownloadTile(r.fs, tileId, w2).events == []
  {
    var r := DownloadTile(fs, tileId, w1);
    assert HasTif(r.fs[TileDir(tileId)]);
    RunOnDownloadedTileIsNoOp(r.fs, tileId, w2);
  }

  /** An item file is listed by the `*.tif` glob unless the item id is empty
      or starts with a dot. */
  lemma AssetFileVisible(itemId: string)
    ensures MatchesTifGlob(AssetFile(itemId)) <==> |itemId| > 0 && itemId[0] != '.'
  {
    var f := AssetFile(itemId);
    assert f[|f| - 4..] == ".tif";
    if |itemId| > 0 {
      assert f[0] == itemId[0];
    }
  }

  /** A finished run writes only the files of items it found, and only those
      whose transfer got as far as opening the file. */
  lemma FinishedRunFiles(fs: Fs, tileId: string, w: World)
    requires DownloadTile(fs, tileId, w).status == Finished
    ensures var g := FindGeometry(w.table.value, tileId).value;
      && w.search(g).Found?
      && DownloadTile(fs, tileId, w).fs[TileDir(tileId)].Keys
         == MakeDirs(fs, BaseDir, TileDir(tileId))[TileDir(tileId)].Keys + Produced(w.search(g).items)
  {
    var dir := TileDir(tileId);
    var g := FindGeometry(w.table.value, tileId).value;
    FetchAllFiles(MakeDirs(fs, BaseDir, dir)[dir], w.search(g).items);
  }

  /** A run sees only its own tile directory: two file systems that agree on
      it give the same outcome there. */
  lemma DownloadTileIsLocal(fs1: Fs, fs2: Fs, tileId: string, w: World)
    requires TileDir(tileId) in fs1 <==> TileDir(tileId) in fs2
    requires TileDir(tileId) in fs1 ==> fs1[TileDir(tileId)] == fs2[TileDir(tileId)]
    ensures DownloadTile(fs1, tileId, w).fs[TileDir(tileId)] == DownloadTile(fs2, tileId, w).fs[TileDir(tileId)]
    ensures DownloadTile(fs1, tileId, w).events == DownloadTile(fs2, tileId, w).events
    ensures DownloadTile(fs1, tileId, w).status == DownloadTile(fs2, tileId, w).status
  {
  }

  lemma TileDirInjective(a: string, b: string)
    ensures TileDir(a) == TileDir(b) <==> a == b
  {
    if TileDir(a) == TileDir(b) {
      var s := TileDir(a);
      assert |a| == |b|;
      assert a == s[|BaseDir| + 1..|BaseDir| + 1 + |a|];
      assert b == TileDir(b)[|BaseDir| + 1..|BaseDir| + 1 + |b|];
    }
  }
}

=== FILE: format.dfy ===
/** Python's `"%02d" % n`: decimal digits, a leading minus sign for negative
    numbers, and zero padding up to a total width of two characters. */
module Format {
  import opened Options

  predicate IsDigit(c: char)
  {
    '0' <= c <= '9'
  }

  predicate AllDigits(s: string)
  {
    forall i :: 0 <= i < |s| ==> IsDigit(s[i])
  }

  function DigitChar(d: nat): (c: char)
    requires d < 10
    ensures IsDigit(c)
  {
    "0123456789"[d]
  }

  function DigitValue(c: char): (d: nat)
    requires IsDigit(c)
    ensures d < 10
  {
    c as int - '0' as int
  }

  lemma DigitValueOfChar(d: nat)
    requires d < 10
    ensures DigitValue(DigitChar(d)) == d
  {
  }

  /** Shortest decimal representation of a natural number. */
  function Digits(n: nat): (s: string)
    ensures AllDigits(s)
    ensures 1 <= |s|
    ensures n < 10 <==> |s| == 1
    ensures 10 <= n < 100 ==> |s| == 2
    decreases n
  {
    if n < 10 then [DigitChar(n)] else Digits(n / 10) + [DigitChar(n % 10)]
  }

  function ParseDigits(s: string): nat
    requires AllDigits(s)
  {
    if s == [] then 0 else ParseDigits(s[..|s| - 1]) * 10 + DigitValue(s[|s| - 1])
  }

  lemma {:induction false} ParseDigitsOfDigits(n: nat)
    ensures ParseDigits(Digits(n)) == n
    decreases n
  {
    if n < 10 {
      DigitValueOfChar(n);
      assert Digits(n)[..0] == [];
    } else {
      var s := Digits(n);
      assert s[..|s| - 1] == Digits(n / 10);
      ParseDigitsOfDigits(n / 10);
      DigitValueOfChar(n % 10);
    }
  }

  /** `"%02d" % n`. */
  function Format02(n: int): (s: string)
    ensures 2 <= |s|
    ensures 0 <= n < 100 <==> |s| == 2 && AllDigits(s)
    ensures forall i :: 0 <= i < |s| ==> s[i] != '_'
  {
    if n < 0 then
      var s := "-" + Digits(-n);
      assert !IsDigit(s[0]);
      s
    else if n < 10 then "0" + Digits(n)
    else Digits(n)
  }

  /** Reads back a field written by `Format02`. */
  function Parse02(s: string): Option<int>
  {
    if |s| >= 2 && s[0] == '-' && AllDigits(s[1..]) then Some(-(ParseDigits(s[1..]) as int))
    else if |s| >= 1 && AllDigits(s) then Some(ParseDigits(s))
    else None
  }

  lemma {:induction false} ParseDigitsLeadingZero(s: string)
    requires AllDigits(s)
    ensures AllDigits("0" + s) && ParseDigits("0" + s) == ParseDigits(s)
    decreases |s|
  {
    if s != [] {
      var t := "0" + s;
      assert t[..|t| - 1] == "0" + s[..|s| - 1];
      ParseDigitsLeadingZero(s[..|s| - 1]);
    } else {
      assert ("0" + s)[..0] == [];
    }
  }

  /** `Format02` loses nothing: every integer is read back exactly. */
  lemma Format02RoundTrip(n: int)
    ensures Parse02(Format02(n)) == Some(n)
  {
    var s := Format02(n);
    if n < 0 {
      assert s == "-" + Digits(-n);
      assert s[1..] == Digits(-n);
      ParseDigitsOfDigits(-n);
      assert Parse02(s) == Some(-(ParseDigits(s[1..]) as int));
    } else if n < 10 {
      assert s == "0" + Digits(n);
      assert s[0] != '-';
      ParseDigitsOfDigits(n);
      ParseDigitsLeadingZero(Digits(n));
      assert Parse02(s) == Some(ParseDigits(s) as int);
    } else {
      assert s == Digits(n);
      assert s[0] != '-';
      ParseDigitsOfDigits(n);
      assert Parse02(s) == Some(ParseDigits(s) as int);
    }
  }

  lemma Format02Injective(a: int, b: int)
    ensures Format02(a) == Format02(b) <==> a == b
  {
    if Format02(a) == Format02(b) {
      Format02RoundTrip(a);
      Format02RoundTrip(b);
    }
  }
}

=== FILE: geometry.dfy ===
/** Planar geometry shared by the grid builder and the downloader.
    Coordinates are exact reals standing in for the source's floats. */
module Geometry {

  datatype Point = Point(x: real, y: real)

  /** An axis-aligned rectangle, as built by `box(x1, y1, x2, y2)`. */
  datatype Rect = Rect(x1: real, y1: real, x2: real, y2: real)

  /** A bounding box `(minx, miny, maxx, maxy)` as returned by `.bounds`. */
  datatype Bounds = Bounds(minx: real, miny: real, maxx: real, maxy: real)

  /** A polygon ring; the clipped tiles are otherwise opaque to the model. */
  datatype Polygon = Polygon(ring: seq<Point>)

  /** A (possibly multi-part) tile geometry. */
  type Geometry = seq<Polygon>

  /** Bounds of a region with positive extent in both directions. */
  predicate ProperBounds(b: Bounds)
  {
    b.minx < b.maxx && b.miny < b.maxy
  }

  predicate InBounds(b: Bounds, p: Point)
  {
    b.minx <= p.x <= b.maxx && b.miny <= p.y <= b.maxy
  }

  /** Closed rectangle membership. */
  predicate Contains(r: Rect, p: Point)
  {
    r.x1 <= p.x <= r.x2 && r.y1 <= p.y <= r.y2
  }

  /** Open rectangle membership (the rectangle's interior). */
  predicate InteriorContains(r: Rect, p: Point)
  {
    r.x1 < p.x < r.x2 && r.y1 < p.y < r.y2
  }

  predicate RectWithin(r: Rect, b: Bounds)
  {
    b.minx <= r.x1 <= r.x2 <= b.maxx && b.miny <= r.y1 <= r.y2 <= b.maxy
  }

  function Area(r: Rect): real
  {
    (r.x2 - r.x1) * (r.y2 - r.y1)
  }

  function BoundsArea(b: Bounds): real
  {
    (b.maxx - b.minx) * (b.maxy - b.miny)
  }

  function TotalArea(rs: seq<Rect>): real
  {
    if rs == [] then 0.0 else Area(rs[0]) + TotalArea(rs[1..])
  }
}

=== FILE: grid.dfy ===
/** The grid builder: an even `rows × cols` split of a bounding box into
    rectangles, produced in row-major order (Georgia_Tiling.py, step 2). */
module Grid {
  import opened Geometry

  function CellWidth(b: Bounds, cols: nat): real
    requires cols > 0
  {
    (b.maxx - b.minx) / (cols as real)
  }

  function CellHeight(b: Bounds, rows: nat): real
    requires rows > 0
  {
    (b.maxy - b.miny) / (rows as real)
  }

  /** The rectangle the loop builds for row `i`, column `j`: its lower-left
      corner is `(minx + j*width, miny + i*height)`, and the upper-right
      corner is that corner shifted by one cell width and height. */
  function Cell(b: Bounds, rows: nat, cols: nat, i: int, j: int): Rect
    requires rows > 0 && cols > 0
  {
    var x1 := b.minx + (j as real) * CellWidth(b, cols);
    var y1 := b.miny + (i as real) * CellHeight(b, rows);
    Rect(x1, y1, x1 + CellWidth(b, cols), y1 + CellHeight(b, rows))
  }

  /** Reference definition of the whole grid: the cell of row `k / cols`,
      column `k % cols` at every index `k`. */
  function Cells(b: Bounds, rows: nat, cols: nat): seq<Rect>
    requires rows > 0 && cols > 0
  {
    seq(rows * cols, k requires 0 <= k < rows * cols => CellAt(b, rows, cols, k))
  }

  /** The cell at row-major position `k`. */
  function CellAt(b: Bounds, rows: nat, cols: nat, k: int): Rect
    requires rows > 0 && cols > 0
  {
    Cell(b, rows, cols, k / cols, k % cols)
  }

  /** Division facts for a row-major index `i*cols + j`. */
  lemma RowMajorIndex(i: nat, j: nat, cols: nat)
    requires j < cols
    ensures (i * cols + j) / cols == i && (i * cols + j) % cols == j
  {
    DivModUnique(i * cols + j, cols, i, j);
  }

  lemma DivModUnique(n: int, d: int, q: int, r: int)
    requires d > 0 && 0 <= r < d && n == q * d + r
    ensures n / d == q && n % d == r
  {
    var q', r' := n / d, n % d;
    assert n == q' * d + r';
    if q' < q {
      MulMonotone(q' + 1, q, d);
    } else if q < q' {
      MulMonotone(q + 1, q', d);
    }
  }

  lemma MulMonotone(a: int, b: int, d: int)
    requires a <= b && d > 0
    ensures a * d <= b * d
  {
    assert (b - a) * d >= 0;
  }

  /** The nested loop of the source, appending one rectangle per (row, col)
      in row-major order. */
  method BuildGrid(b: Bounds, rows: nat, cols: nat) returns (tiles: seq<Rect>)
    requires rows > 0 && cols > 0
    ensures |tiles| == rows * cols
    ensures forall k :: 0 <= k < |tiles| ==> tiles[k] == Cell(b, rows, cols, k / cols, k % cols)
    ensures tiles == Cells(b, rows, cols)
  {
    tiles := [];
    var i := 0;
    while i < rows
      invariant 0 <= i <= rows
      invariant |tiles| == i * cols
      invariant forall k :: 0 <= k < |tiles| ==> tiles[k] == CellAt(b, rows, cols, k)
    {
      tiles := AppendRow(b, rows, cols, i, tiles);
      i := i + 1;
    }
    MatchesCells(tiles, b, rows, cols);
  }

  /** One pass of the inner loop: the `cols` rectangles of row `i`. */
  method AppendRow(b: Bounds, rows: nat, cols: nat, i: nat, prefix: seq<Rect>) returns (tiles: seq<Rect>)
    requires rows > 0 && cols > 0
    requires |prefix| == i * cols
    requires forall k :: 0 <= k < |prefix| ==> prefix[k] == CellAt(b, rows, cols, k)
    ensures |tiles| == (i + 1) * cols
    ensures forall k :: 0 <= k < |tiles| ==> tiles[k] == CellAt(b, rows, cols, k)
  {
    var width := (b.maxx - b.minx) / (cols as real);
    var height := (b.maxy - b.miny) / (rows as real);
    tiles := prefix;
    var j := 0;
    while j < cols
      invariant 0 <= j <= cols
      invariant |tiles| == i * cols + j
      invariant forall k :: 0 <= k < |tiles| ==> tiles[k] == CellAt(b, rows, cols, k)
    {
      var x1 := b.minx + (j as real) * width;
      var y1 := b.miny + (i as real) * height;
      var x2 := x1 + width;
      var y2 := y1 + height;
      RowMajorIndex(i, j, cols);
      assert Rect(x1, y1, x2, y2) == CellAt(b, rows, cols, i * cols + j);
      tiles := tiles + [Rect(x1, y1, x2, y2)];
      j := j + 1;
    }
    assert i * cols + cols == (i + 1) * cols;
  }

  /** The grid is in row-major order: row `i`, column `j` sits at index
      `i*cols + j`. */
  lemma CellsRowMajor(b: Bounds, rows: nat, cols: nat, i: nat, j: nat)
    requires rows > 0 && cols > 0
    requires i < rows && j < cols
    ensures i * cols + j < |Cells(b, rows, cols)|
    ensures Cells(b, rows, cols)[i * cols + j] == Cell(b, rows, cols, i, j)
  {
    RowMajorIndex(i, j, cols);
    MulMonotone(i + 1, rows, cols);
    assert (i + 1) * cols == i * cols + cols;
  }

  lemma MatchesCells(tiles: seq<Rect>, b: Bounds, rows: nat, cols: nat)
    requires rows > 0 && cols > 0
    requires |tiles| == rows * cols
    requires forall k :: 0 <= k < |tiles| ==> tiles[k] == CellAt(b, rows, cols, k)
    ensures tiles == Cells(b, rows, cols)
  {
  }

  /** Every cell is `width × height`; horizontally and vertically adjacent
      cells share an edge; the last column ends at `maxx` and the last row at
      `maxy` (exact over the reals). */
  lemma CellEdges(b: Bounds, rows: nat, cols: nat, i: int, j: int)
    requires rows > 0 && cols > 0
    ensures Cell(b, rows, cols, i, j).x2 - Cell(b, rows, cols, i, j).x1 == CellWidth(b, cols)
    ensures Cell(b, rows, cols, i, j).y2 - Cell(b, rows, cols, i, j).y1 == CellHeight(b, rows)
    ensures Cell(b, rows, cols, i, j).x2 == Cell(b, rows, cols, i, j + 1).x1
    ensures Cell(b, rows, cols, i, j).y2 == Cell(b, rows, cols, i + 1, j).y1
    ensures j == cols - 1 ==> Cell(b, rows, cols, i, j).x2 == b.maxx
    ensures i == rows - 1 ==> Cell(b, rows, cols, i, j).y2 == b.maxy
    ensures j == 0 ==> Cell(b, rows, cols, i, j).x1 == b.minx
    ensures i == 0 ==> Cell(b, rows, cols, i, j).y1 == b.miny
  {
    SlotEnd(b.minx, b.maxx, cols, j);
    SlotEnd(b.miny, b.maxy, rows, i);
  }

  /** Slot `j` of an interval `[lo, hi]` cut into `n` equal parts ends where
      slot `j + 1` starts, and the last slot ends at `hi`. */
  lemma SlotEnd(lo: real, hi: real, n: nat, j: int)
    requires n > 0
    ensures lo + (j as real) * ((hi - lo) / (n as real)) + (hi - lo) / (n as real)
         == lo + ((j + 1) as real) * ((hi - lo) / (n as real))
    ensures j == n - 1 ==> lo + (j as real) * ((hi - lo) / (n as real)) + (hi - lo) / (n as real) == hi
  {
    var w := (hi - lo) / (n as real);
    assert (n as real) * w == hi - lo;
    assert ((j + 1) as real) * w == (j as real) * w + w;
  }

  lemma NonnegProduct(x: real, w: real)
    requires x >= 0.0 && w >= 0.0
    ensures x * w >= 0.0
  {
  }

  lemma PositiveProduct(x: real, w: real)
    requires x > 0.0 && w > 0.0
    ensures x * w > 0.0
  {
  }

  lemma PositiveFactor(x: real, w: real)
    requires w > 0.0 && x * w > 0.0
    ensures x > 0.0
  {
  }

  lemma IntLessByFactor(a: int, b: int, d: int)
    requires d > 0 && a * d < b * d
    ensures a < b
  {
    assert (b - a) * d == b * d - a * d;
  }

  /** Slots of a non-degenerate interval stay inside it. */
  lemma SlotWithin(lo: real, hi: real, n: nat, j: int)
    requires n > 0 && lo <= hi && 0 <= j < n
    ensures lo <= lo + (j as real) * ((hi - lo) / (n as real))
    ensures lo + (j as real) * ((hi - lo) / (n as real)) + (hi - lo) / (n as real) <= hi
  {
    var w := (hi - lo) / (n as real);
    assert w >= 0.0;
    NonnegProduct(j as real, w);
    SlotEnd(lo, hi, n, j);
    assert (n as real) * w == hi - lo;
    NonnegProduct((n - j - 1) as real, w);
    assert ((n - j - 1) as real) * w == (n as real) * w - ((j + 1) as real) * w;
  }

  lemma QuotientBelow(k: nat, d: nat, n: nat)
    requires d > 0 && k < n * d
    ensures 0 <= k / d < n
    ensures (k / d) * d + k % d == k
  {
    assert (-1) * d < (k / d) * d;
    IntLessByFactor(-1, k / d, d);
    assert (k / d) * d <= k;
    IntLessByFactor(k / d, n, d);
  }

  /** The cell at index `k` of the grid, and its row and column. */
  lemma CellsIndex(b: Bounds, rows: nat, cols: nat, k: int)
    requires rows > 0 && cols > 0
    requires 0 <= k < |Cells(b, rows, cols)|
    ensures 0 <= k / cols < rows && 0 <= k % cols < cols
    ensures Cells(b, rows, cols)[k] == Cell(b, rows, cols, k / cols, k % cols)
  {
    var i, j := k / cols, k % cols;
    assert k == i * cols + j;
    IntLessByFactor(i, rows, cols);
  }

  /** Every rectangle of the grid lies inside the bounding box. */
  lemma CellsWithinBounds(b: Bounds, rows: nat, cols: nat, k: int)
    requires rows > 0 && cols > 0
    requires b.minx <= b.maxx && b.miny <= b.maxy
    requires 0 <= k < |Cells(b, rows, cols)|
    ensures RectWithin(Cells(b, rows, cols)[k], b)
  {
    CellsIndex(b, rows, cols, k);
    SlotWithin(b.minx, b.maxx, cols, k % cols);
    SlotWithin(b.miny, b.maxy, rows, k / cols);
  }

  lemma ScaledFloorLower(d: real, w: real, r: real, qr: real)
    requires w > 0.0 && r * w == d && qr <= r
    ensures qr * w <= d
  {
    NonnegProduct(r - qr, w);
    assert (r - qr) * w == r * w - qr * w;
  }

  lemma ScaledFloorUpper(d: real, w: real, r: real, qr: real)
    requires w > 0.0 && r * w == d && r < qr + 1.0
    ensures d < qr * w + w
  {
    PositiveProduct(qr + 1.0 - r, w);
    assert (qr + 1.0 - r) * w == qr * w + w - r * w;
  }

  lemma NotBelowZero(d: real, w: real, qr: real)
    requires w > 0.0 && d >= 0.0 && d < qr * w + w
    ensures qr > -1.0
  {
    assert (qr + 1.0) * w == qr * w + w;
    PositiveFactor(qr + 1.0, w);
  }

  /** The integer slot of width `w` holding offset `d`. */
  lemma FloorSlot(d: real, w: real) returns (q: int)
    requires w > 0.0 && d >= 0.0
    ensures q >= 0
    ensures (q as real) * w <= d < (q as real) * w + w
  {
    var r := d / w;
    q := r.Floor;
    ScaledFloorLower(d, w, r, q as real);
    ScaledFloorUpper(d, w, r, q as real);
    NotBelowZero(d, w, q as real);
  }
  /** The slot of `[0, n*w]` holding offset `d`. */
  lemma SlotOf(d: real, w: real, n: nat) returns (j: nat)
    requires w > 0.0 && n > 0
    requires 0.0 <= d <= (n as real) * w
    ensures j < n
    ensures (j as real) * w <= d <= (j as real) * w + w
  {
    var q := FloorSlot(d, w);
    if q >= n {
      NonnegProduct((q - n) as real, w);
      assert ((q - n) as real) * w == (q as real) * w - (n as real) * w;
      j := n - 1;
      assert (j as real) * w + w == (n as real) * w;
    } else {
      j := q;
    }
  }

  /** An offset strictly inside two slots identifies the slot. */
  lemma SlotUnique(d: real, w: real, j: int, k: int)
    requires w > 0.0
    requires (j as real) * w < d < (j as real) * w + w
    requires (k as real) * w < d < (k as real) * w + w
    ensures j == k
  {
    var jw, kw := (j as real) * w, (k as real) * w;
    assert jw < d < kw + w;
    assert kw < d < jw + w;
    var x := (j + 1 - k) as real;
    assert x * w == jw + w - kw;
    PositiveFactor(x, w);
    var y := (k + 1 - j) as real;
    assert y * w == kw + w - jw;
    PositiveFactor(y, w);
  }

  /** The slot of the interval `[lo, hi]`, cut into `n` equal parts, that
      holds `x`. */
  lemma SlotOfInterval(lo: real, hi: real, n: nat, x: real) returns (j: nat)
    requires n > 0 && lo < hi && lo <= x <= hi
    ensures j < n
    ensures lo + (j as real) * ((hi - lo) / (n as real)) <= x
    ensures x <= lo + (j as real) * ((hi - lo) / (n as real)) + (hi - lo) / (n as real)
  {
    var w := (hi - lo) / (n as real);
    assert (n as real) * w == hi - lo;
    j := SlotOf(x - lo, w, n);
  }

  /** A point strictly inside two slots of `[lo, hi]` names one slot. */
  lemma SlotOfIntervalUnique(lo: real, hi: real, n: nat, x: real, j: int, k: int)
    requires n > 0 && lo < hi
    requires lo + (j as real) * ((hi - lo) / (n as real)) < x < lo + (j as real) * ((hi - lo) / (n as real)) + (hi - lo) / (n as real)
    requires lo + (k as real) * ((hi - lo) / (n as real)) < x < lo + (k as real) * ((hi - lo) / (n as real)) + (hi - lo) / (n as real)
    ensures j == k
  {
    SlotUnique(x - lo, (hi - lo) / (n as real), j, k);
  }

  /** No gaps: every point of the bounding box lies in some grid cell. */
  lemma GridCoversBounds(b: Bounds, rows: nat, cols: nat, p: Point)
    requires rows > 0 && cols > 0
    requires ProperBounds(b) && InBounds(b, p)
    ensures exists k :: 0 <= k < |Cells(b, rows, cols)| && Contains(Cells(b, rows, cols)[k], p)
  {
    var j := SlotOfInterval(b.minx, b.maxx, cols, p.x);
    var i := SlotOfInterval(b.miny, b.maxy, rows, p.y);
    assert Contains(Cell(b, rows, cols, i, j), p);
    CellsRowMajor(b, rows, cols, i, j);
    var k := i * cols + j;
    assert 0 <= k < |Cells(b, rows, cols)| && Contains(Cells(b, rows, cols)[k], p);
  }

  /** No overlaps: a point in the interior of two grid cells pins down one
      cell. */
  lemma GridInteriorsDisjoint(b: Bounds, rows: nat, cols: nat, k: int, k': int, p: Point)
    requires rows > 0 && cols > 0
    requires ProperBounds(b)
    requires 0 <= k < |Cells(b, rows, cols)| && 0 <= k' < |Cells(b, rows, cols)|
    requires InteriorContains(Cells(b, rows, cols)[k], p)
    requires InteriorContains(Cells(b, rows, cols)[k'], p)
    ensures k == k'
  {
    CellsIndex(b, rows, cols, k);
    CellsIndex(b, rows, cols, k');
    CellInteriorsDisjoint(b, rows, cols, k / cols, k % cols, k' / cols, k' % cols, p);
    SameRowAndColumn(k, k', cols);
  }

  lemma CellInteriorsDisjoint(b: Bounds, rows: nat, cols: nat, i: int, j: int, i': int, j': int, p: Point)
    requires rows > 0 && cols > 0
    requires ProperBounds(b)
    requires InteriorContains(Cell(b, rows, cols, i, j), p)
    requires InteriorContains(Cell(b, rows, cols, i', j'), p)
    ensures i == i' && j == j'
  {
    SlotOfIntervalUnique(b.minx, b.maxx, cols, p.x, j, j');
    SlotOfIntervalUnique(b.miny, b.maxy, rows, p.y, i, i');
  }

  /** A row-major index is determined by its row and column. */
  lemma SameRowAndColumn(k: int, k': int, cols: nat)
    requires cols > 0
    requires k / cols == k' / cols && k % cols == k' % cols
    ensures k == k'
  {
    assert k == (k / cols) * cols + k % cols;
    assert k' == (k' / cols) * cols + k' % cols;
  }

  lemma CellArea(b: Bounds, rows: nat, cols: nat, k: int)
    requires rows > 0 && cols > 0
    requires 0 <= k < |Cells(b, rows, cols)|
    ensures Area(Cells(b, rows, cols)[k]) == CellWidth(b, cols) * CellHeight(b, rows)
  {
    CellsIndex(b, rows, cols, k);
    CellEdges(b, rows, cols, k / cols, k % cols);
  }

  /** The cells' areas add up to the area of the bounding box. */
  lemma GridAreaSum(b: Bounds, rows: nat, cols: nat)
    requires rows > 0 && cols > 0
    ensures TotalArea(Cells(b, rows, cols)) == BoundsArea(b)
  {
    var a := CellWidth(b, cols) * CellHeight(b, rows);
    var cells := Cells(b, rows, cols);
    forall k | 0 <= k < |cells|
      ensures Area(cells[k]) == a
    {
      CellArea(b, rows, cols, k);
    }
    ConstantAreaSum(cells, a);
    SlotsArea(b.maxx - b.minx, b.maxy - b.miny, rows, cols);
  }

  lemma SlotsArea(width: real, height: real, rows: nat, cols: nat)
    requires rows > 0 && cols > 0
    ensures ((rows * cols) as real) * ((width / (cols as real)) * (height / (rows as real))) == width * height
  {
    var w, h := width / (cols as real), height / (rows as real);
    assert (cols as real) * w == width;
    assert (rows as real) * h == height;
    assert ((rows * cols) as real) == (rows as real) * (cols as real);
    assert ((rows as real) * (cols as real)) * (w * h) == ((cols as real) * w) * ((rows as real) * h);
  }

  lemma {:induction false} ConstantAreaSum(rs: seq<Rect>, a: real)
    requires forall k :: 0 <= k < |rs| ==> Area(rs[k]) == a
    ensures TotalArea(rs) == (|rs| as real) * a
  {
    if rs != [] {
      ConstantAreaSum(rs[1..], a);
    }
  }
}

=== FILE: labels.dfy ===
/** Row/column labels and tile identifiers for the clipped tiles
    (Georgia_Tiling.py, step 3). The labels are positional: the k-th clipped
    tile takes the k-th entry of `np.repeat(np.arange(rows), cols)` and of
    `np.tile(np.arange(cols), rows)`, each cut to the number of tiles. */
module Labels {
  import opened Options
  import opened Geometry
  import opened Format
  import Grid

  /** A labelled tile: one row of the persisted tile table. */
  datatype Tile = Tile(tileId: string, geometry: Geometry, row: int, col: int)

  /** Outcome of the labelling step: the table, or the error pandas raises
      when a column of the wrong length is assigned. */
  datatype Labelling =
    | Labelled(tiles: seq<Tile>)
    | LengthMismatch(values: nat, tableRows: nat)

  /** `np.arange(n)`. */
  function Arange(n: nat): seq<int>
  {
    seq(n, k => k)
  }

  /** `np.repeat(xs, count)`: every element repeated `count` times in place. */
  function Repeat(xs: seq<int>, count: nat): seq<int>
  {
    if xs == [] then []
    else
      var x := xs[0];
      seq(count, _ => x) + Repeat(xs[1..], count)
  }

  /** `np.tile(xs, times)`: the whole sequence repeated `times` times. */
  function TileSeq(xs: seq<int>, times: nat): seq<int>
  {
    if times == 0 then [] else xs + TileSeq(xs, times - 1)
  }

  /** Python's `xs[:n]` for `n >= 0`: a prefix, or everything when `n` is
      past the end. */
  function Take(xs: seq<int>, n: nat): (r: seq<int>)
    ensures |r| == if n <= |xs| then n else |xs|
    ensures r <= xs
  {
    if n <= |xs| then xs[..n] else xs
  }

  lemma {:induction false} RepeatLength(xs: seq<int>, count: nat)
    ensures |Repeat(xs, count)| == |xs| * count
    decreases |xs|
  {
    if xs != [] {
      RepeatLength(xs[1..], count);
      assert |xs| * count == count + |xs[1..]| * count;
    }
  }

  /** Entry `k` of `np.repeat(xs, count)` is `xs[k / count]`. */
  lemma {:induction false} RepeatIndex(xs: seq<int>, count: nat, k: nat)
    requires count > 0 && k < |xs| * count
    ensures |Repeat(xs, count)| == |xs| * count
    ensures k / count < |xs|
    ensures Repeat(xs, count)[k] == xs[k / count]
    decreases |xs|
  {
    RepeatLength(xs, count);
    Grid.QuotientBelow(k, count, |xs|);
    if k < count {
      Grid.DivModUnique(k, count, 0, k);
    } else {
      var rest := xs[1..];
      assert k - count < |rest| * count by {
        assert |xs| * count == count + |rest| * count;
      }
      RepeatIndex(rest, count, k - count);
      var q, r := (k - count) / count, (k - count) % count;
      assert k / count == q + 1 by {
        assert k == (q + 1) * count + r by {
          assert k - count == q * count + r;
          assert (q + 1) * count == q * count + count;
        }
        Grid.DivModUnique(k, count, q + 1, r);
      }
      assert Repeat(xs, count)[k] == Repeat(rest, count)[k - count];
    }
  }

  lemma {:induction false} TileSeqLength(xs: seq<int>, times: nat)
    ensures |TileSeq(xs, times)| == |xs| * times
    decreases times
  {
    if times > 0 {
      TileSeqLength(xs, times - 1);
      assert |xs| * times == |xs| + |xs| * (times - 1);
    }
  }

  /** Entry `k` of `np.tile(xs, times)` is `xs[k % |xs|]`. */
  lemma {:induction false} TileSeqIndex(xs: seq<int>, times: nat, k: nat)
    requires |xs| > 0 && k < |xs| * times
    ensures |TileSeq(xs, times)| == |xs| * times
    ensures TileSeq(xs, times)[k] == xs[k % |xs|]
    decreases times
  {
    TileSeqLength(xs, times);
    if k < |xs| {
      Grid.DivModUnique(k, |xs|, 0, k);
    } else {
      var n := |xs|;
      assert k - n < n * (times - 1) by {
        assert n * times == n + n * (times - 1);
      }
      TileSeqIndex(xs, times - 1, k - n);
      var q, r := (k - n) / n, (k - n) % n;
      assert k % n == r by {
        assert k == (q + 1) * n + r by {
          assert k - n == q * n + r;
          assert (q + 1) * n == q * n + n;
        }
        Grid.DivModUnique(k, n, q + 1, r);
      }
      assert TileSeq(xs, times)[k] == TileSeq(xs, times - 1)[k - n];
    }
  }

  /** The row label column, `np.repeat(np.arange(rows), cols)`: entry `k` is
      `k / cols`. */
  lemma RowColumn(rows: nat, cols: nat)
    requires rows > 0 && cols > 0
    ensures |Repeat(Arange(rows), cols)| == rows * cols
    ensures forall k :: 0 <= k < rows * cols ==> Repeat(Arange(rows), cols)[k] == k / cols
  {
    RepeatLength(Arange(rows), cols);
    forall k | 0 <= k < rows * cols
      ensures Repeat(Arange(rows), cols)[k] == k / cols
    {
      RepeatIndex(Arange(rows), cols, k);
    }
  }

  /** The column label column, `np.tile(np.arange(cols), rows)`: entry `k`
      is `k % cols`. */
  lemma ColColumn(rows: nat, cols: nat)
    requires rows > 0 && cols > 0
    ensures |TileSeq(Arange(cols), rows)| == rows * cols
    ensures forall k :: 0 <= k < rows * cols ==> TileSeq(Arange(cols), rows)[k] == k % cols
  {
    TileSeqLength(Arange(cols), rows);
    forall k | 0 <= k < rows * cols
      ensures TileSeq(Arange(cols), rows)[k] == k % cols
    {
      TileSeqIndex(Arange(cols), rows, k);
    }
  }

  /** `"tile_%02d_%02d" % (r, c)`. */
  function TileId(r: int, c: int): string
  {
    "tile_" + Format02(r) + "_" + Format02(c)
  }

  /** First position of `c` in `s`. */
  function IndexOf(s: string, c: char): (r: Option<nat>)
    ensures r.Some? ==> r.value < |s| && s[r.value] == c && forall i :: 0 <= i < r.value ==> s[i] != c
    ensures r.None? ==> forall i :: 0 <= i < |s| ==> s[i] != c
  {
    if s == [] then None
    else if s[0] == c then Some(0)
    else match IndexOf(s[1..], c)
      case None => None
      case Some(i) => Some(i + 1)
  }

  /** Reads a tile identifier back into its row and column labels. */
  function ParseTileId(s: string): Option<(int, int)>
  {
    if |s| < 5 || s[..5] != "tile_" then None
    else
      var rest := s[5..];
      match IndexOf(rest, '_')
      case None => None
      case Some(i) =>
        match (Parse02(rest[..i]), Parse02(rest[i + 1..]))
        case (Some(r), Some(c)) => Some((r, c))
        case _ => None
  }

  lemma TileIdRoundTrip(r: int, c: int)
    ensures ParseTileId(TileId(r, c)) == Some((r, c))
  {
    var s := TileId(r, c);
    var fr, fc := Format02(r), Format02(c);
    assert s[..5] == "tile_";
    var rest := s[5..];
    assert rest == fr + "_" + fc;
    assert rest[|fr|] == '_';
    assert forall i :: 0 <= i < |fr| ==> rest[i] == fr[i];
    assert IndexOf(rest, '_') == Some(|fr|);
    assert rest[..|fr|] == fr;
    assert rest[|fr| + 1..] == fc;
    Format02RoundTrip(r);
    Format02RoundTrip(c);
  }

  /** Distinct (row, col) labels give distinct identifiers. */
  lemma TileIdInjective(r: int, c: int, r': int, c': int)
    ensures TileId(r, c) == TileId(r', c') <==> r == r' && c == c'
  {
    TileIdRoundTrip(r, c);
    TileIdRoundTrip(r', c');
  }

  /** Lines 43-45: label the clipped tiles by position. Labels depend on the
      number of tiles only, never on their geometry; more tiles than grid
      cells makes the label columns too short, which pandas rejects. */
  function LabelTiles(clipped: seq<Geometry>, rows: nat, cols: nat): (r: Labelling)
    requires rows > 0 && cols > 0
    ensures r.Labelled? <==> |clipped| <= rows * cols
    ensures r.Labelled? ==> |r.tiles| == |clipped|
    ensures r.Labelled? ==> forall k :: 0 <= k < |clipped| ==>
      r.tiles[k] == Tile(TileId(k / cols, k % cols), clipped[k], k / cols, k % cols)
  {
    RowColumn(rows, cols);
    ColColumn(rows, cols);
    var rowValues := Take(Repeat(Arange(rows), cols), |clipped|);
    var colValues := Take(TileSeq(Arange(cols), rows), |clipped|);
    if |rowValues| != |clipped| then LengthMismatch(|rowValues|, |clipped|)
    else
      Labelled(seq(|clipped|, k requires 0 <= k < |clipped| =>
        Tile(TileId(rowValues[k], colValues[k]), clipped[k], rowValues[k], colValues[k])))
  }

  /** Identifiers of a labelled table are pairwise distinct. */
  lemma LabelledIdsDistinct(clipped: seq<Geometry>, rows: nat, cols: nat)
    requires rows > 0 && cols > 0
    requires LabelTiles(clipped, rows, cols).Labelled?
    ensures forall k, k' :: 0 <= k < k' < |clipped| ==>
      LabelTiles(clipped, rows, cols).tiles[k].tileId != LabelTiles(clipped, rows, cols).tiles[k'].tileId
  {
    var tiles := LabelTiles(clipped, rows, cols).tiles;
    forall k, k' | 0 <= k < k' < |clipped|
      ensures tiles[k].tileId != tiles[k'].tileId
    {
      TileIdInjective(k / cols, k % cols, k' / cols, k' % cols);
      if k / cols == k' / cols && k % cols == k' % cols {
        Grid.SameRowAndColumn(k, k', cols);
      }
    }
  }

  /** A clipped piece together with the index of the grid rectangle it
      was cut from. */
  datatype Piece = Piece(source: nat, geometry: Geometry)

  /** Labelling by provenance: each piece is named after the grid cell it
      came from, so dropped or split cells cannot shift the labels of the
      others. */
  function LabelBySource(pieces: seq<Piece>, rows: nat, cols: nat): (tiles: seq<Tile>)
    requires rows > 0 && cols > 0
    requires forall k :: 0 <= k < |pieces| ==> pieces[k].source < rows * cols
    ensures |tiles| == |pieces|
    ensures forall k :: 0 <= k < |pieces| ==>
      && 0 <= tiles[k].row < rows && 0 <= tiles[k].col < cols
      && tiles[k].row * cols + tiles[k].col == pieces[k].source
      && tiles[k].tileId == TileId(tiles[k].row, tiles[k].col)
      && tiles[k].geometry == pieces[k].geometry
  {
    seq(|pieces|, k requires 0 <= k < |pieces| => SourceTile(pieces[k], rows, cols))
  }

  function SourceTile(p: Piece, rows: nat, cols: nat): (t: Tile)
    requires rows > 0 && cols > 0 && p.source < rows * cols
    ensures 0 <= t.row < rows && 0 <= t.col < cols
    ensures t.row * cols + t.col == p.source
    ensures t.tileId == TileId(t.row, t.col) && t.geometry == p.geometry
  {
    var i, j := p.source / cols, p.source % cols;
    Grid.QuotientBelow(p.source, cols, rows);
    Tile(TileId(i, j), p.geometry, i, j)
  }

  /** The label a piece receives names the rectangle it was cut from. */
  lemma SourceLabelNamesCell(b: Bounds, pieces: seq<Piece>, rows: nat, cols: nat, k: nat)
    requires rows > 0 && cols > 0
    requires forall k :: 0 <= k < |pieces| ==> pieces[k].source < rows * cols
    requires k < |pieces|
    ensures pieces[k].source < |Grid.Cells(b, rows, cols)|
    ensures Grid.Cells(b, rows, cols)[pieces[k].source]
         == Grid.Cell(b, rows, cols, LabelBySource(pieces, rows, cols)[k].row, LabelBySource(pieces, rows, cols)[k].col)
  {
    var t := LabelBySource(pieces, rows, cols)[k];
    Grid.CellsRowMajor(b, rows, cols, t.row, t.col);
  }

  /** Pieces cut from distinct rectangles get distinct identifiers. */
  lemma SourceLabelsDistinct(pieces: seq<Piece>, rows: nat, cols: nat)
    requires rows > 0 && cols > 0
    requires forall k :: 0 <= k < |pieces| ==> pieces[k].source < rows * cols
    requires forall k, k' :: 0 <= k < k' < |pieces| ==> pieces[k].source != pieces[k'].source
    ensures forall k, k' :: 0 <= k < k' < |pieces| ==>
      LabelBySource(pieces, rows, cols)[k].tileId != LabelBySource(pieces, rows, cols)[k'].tileId
  {
    var tiles := LabelBySource(pieces, rows, cols);
    forall k, k' | 0 <= k < k' < |pieces|
      ensures tiles[k].tileId != tiles[k'].tileId
    {
      TileIdInjective(tiles[k].row, tiles[k].col, tiles[k'].row, tiles[k'].col);
    }
  }

  /** The positional labelling as written misnames a tile as soon as the clip
      drops a rectangle: here the first rectangle of a 2×2 grid lies outside
      the region, and the piece cut from rectangle 1 (row 0, column 1) is
      labelled `tile_00_00`. */
  lemma PositionalLabelMisnamesCell(g: Geometry)
    ensures LabelTiles([g], 2, 2).Labelled?
    ensures LabelTiles([g], 2, 2).tiles[0].tileId == "tile_00_00"
    ensures LabelBySource([Piece(1, g)], 2, 2)[0].tileId == "tile_00_01"
    ensures Grid.Cells(Bounds(0.0, 0.0, 10.0, 10.0), 2, 2)[1]
         != Grid.Cell(Bounds(0.0, 0.0, 10.0, 10.0), 2, 2, LabelTiles([g], 2, 2).tiles[0].row, LabelTiles([g], 2, 2).tiles[0].col)
  {
    var t := LabelTiles([g], 2, 2).tiles[0];
    assert t.row == 0 && t.col == 0;
    assert Format02(0) == "00" && Format02(1) == "01";
    var u := LabelBySource([Piece(1, g)], 2, 2)[0];
    assert u.row == 0 && u.col == 1;
    var b := Bounds(0.0, 0.0, 10.0, 10.0);
    Grid.CellsRowMajor(b, 2, 2, 0, 1);
    assert Grid.Cell(b, 2, 2, 0, 1).x1 == 5.0;
  }

  /** A 2×2 grid over (0,0)-(10,10) with nothing clipped away: four 5×5
      squares labelled `tile_00_00`, `tile_00_01`, `tile_01_00`,
      `tile_01_01`, whose areas add up to 100. */
  lemma TwoByTwoExample(pieces: seq<Geometry>)
    requires |pieces| == 4
    ensures var b := Bounds(0.0, 0.0, 10.0, 10.0);
      && Grid.Cells(b, 2, 2) == [Rect(0.0, 0.0, 5.0, 5.0), Rect(5.0, 0.0, 10.0, 5.0),
                                  Rect(0.0, 5.0, 5.0, 10.0), Rect(5.0, 5.0, 10.0, 10.0)]
      && TotalArea(Grid.Cells(b, 2, 2)) == 100.0
    ensures LabelTiles(pieces, 2, 2).Labelled?
    ensures var ts := LabelTiles(pieces, 2, 2).tiles;
      [ts[0].tileId, ts[1].tileId, ts[2].tileId, ts[3].tileId] == ["tile_00_00", "tile_00_01", "tile_01_00", "tile_01_01"]
  {
    var b := Bounds(0.0, 0.0, 10.0, 10.0);
    var cells := Grid.Cells(b, 2, 2);
    Grid.CellsRowMajor(b, 2, 2, 0, 0);
    Grid.CellsRowMajor(b, 2, 2, 0, 1);
    Grid.CellsRowMajor(b, 2, 2, 1, 0);
    Grid.CellsRowMajor(b, 2, 2, 1, 1);
    Grid.GridAreaSum(b, 2, 2);
    assert Format02(0) == "00" && Format02(1) == "01";
    assert TileId(0, 0) == "tile_00_00" && TileId(0, 1) == "tile_00_01";
    assert TileId(1, 0) == "tile_01_00" && TileId(1, 1) == "tile_01_01";
    var ts := LabelTiles(pieces, 2, 2).tiles;
    assert ts[0].tileId == TileId(0, 0) && ts[1].tileId == TileId(0, 1);
    assert ts[2].tileId == TileId(1, 0) && ts[3].tileId == TileId(1, 1);
  }
}

=== FILE: options.dfy ===
/** The optional value used wherever the modelled code may find nothing. */
module Options {

  datatype Option<+T> = None | Some(value: T)
}
